=== FILE: README.md ===
# Parquet-to-Neo4j bulk loader: a Dafny model

This project models the core of a bulk loader that moves Parquet fragments
into a Neo4j graph through the GDS Arrow Flight service. It covers two
pieces.

- **The client** (`neo4j_arrow_v2.py`). A `Neo4jArrowClient` walks one load
  session through `READY → FEEDING_NODES → FEEDING_EDGES → AWAITING_GRAPH`.
  Every operation asserts the state it needs. A control action advances
  the state only when the service's JSON reply is truthy. Node and
  relationship data are streamed as record batches, and the client counts
  the rows and bytes it sent.
- **The orchestration** (`neo4j_pq_v2.py`). Each worker renames the leading
  columns of every batch to the names the service expects. It picks the node
  or the relationship consumer from the task's keys and sums what each task
  wrote. The child process behind `fan_out` builds one task per fragment,
  sizes the process pool and draws a progress bar of ticks. It collects the
  worker summaries in completion order and always answers with
  `(results, delta)`.

Everything outside the process is a parameter. Control actions go to an
oracle `send: Action -> Option<Json>`, where no reply is a failed `do_action`. A stream is described by a
`StreamOutcome`: it cannot be opened, or the write of batch `k` fails, or
closing the writer on leaving `with writer:` raises (the source then raises
whether or not the writes succeeded), or every write and the close succeed. The pool is a completion order `order` (a permutation
of the task indices). The clock reading is `elapsed`. The CPU-derived pool
size is an opaque `auto: nat`.

Faults are values. `Outcomes.Fault` names each exception the source can
raise on the modelled paths:

- a failed `assert self.state == …`;
- the "empty iterable" exception;
- the `AttributeError` of a rename applied to `None`;
- a `KeyError` from a schema lookup;
- a transport failure (the stream does not open, or its close raises);
- the `NameError` in `wait`;
- the worker's "can't pick a consuming function";
- a keyword argument given twice;
- a missing `fragment` key;
- a zero `range` step.

Client operations return `Step(client, result)`, the client after the call
and its result, so a fault still leaves a visible client.

Modules follow the source: `Outcomes`, `Batches`, `Renames` (the
`map_batch` functions), `Streams` (`_write_batches` / `_write_table`),
`ArrowClient`, `Tasks` (`worker` and the work list), `Orchestrator`
(`__main__` and `fan_out`).

## Model

| member | source | states |
|---|---|---|
| Batches.TotalConcat | neo4j_arrow_v2.py:126-133 | The running row and byte sums of a stream split at any point are the sums of the two parts. |
| Renames.Rename | neo4j_pq_v2.py:25-33 | A positional rename either fails with a field-lookup `KeyError` or yields the batch with positions below `\|targets\|` renamed, every type, the field count and the bytes kept. The `from_arrays` rebuild keeps the rows of a batch with columns; a batch without columns comes back with 0 rows. |
| Renames.RenameNodes | neo4j_pq_v2.py:25-33 | On success, field 0 is `nodeId` and field 1 is `labels`. Every later field is unchanged. All types, the field count and the byte count are kept. The row count is kept, except that a batch without columns comes back with 0 rows. |
| Renames.RenameEdges | neo4j_pq_v2.py:45-55 | On success, fields 0, 1 and 2 are `sourceNodeId`, `targetNodeId` and `relationshipType`. Every later field is unchanged. All types, the field count and the byte count are kept. The row count is kept, except that a batch without columns comes back with 0 rows. |
| Renames.LookupAt | neo4j_pq_v2.py:28 | `Schema.field(name)` on a name carried by exactly one field returns that field. |
| Renames.RenameFromSpec | neo4j_pq_v2.py:27-32 | The rename loop from any position succeeds iff each lookup it makes finds exactly one field. On success it produces the relabelled schema. |
| Renames.RenameSucceedsIff | neo4j_pq_v2.py:26-33 | A rename succeeds exactly when `Renamable` holds: each original name is unique in the schema as the loop holds it when looking that name up. |
| Renames.RenamedDistinct | neo4j_pq_v2.py:25-33 | With distinct target names, a schema that renames successfully ends with pairwise distinct field names. |
| Renames.RenameIdempotent | neo4j_pq_v2.py:25-33 | With distinct target names, renaming the output of a successful rename again gives the same batch. |
| Renames.RenamesIdempotent | neo4j_pq_v2.py:25-55 | The node rename and the edge rename are each idempotent. |
| Renames.RenameDependsOnSchema | neo4j_pq_v2.py:26-33 | Whether a rename succeeds depends on the schema alone, not on the rows. |
| Streams.ApplyMapping | neo4j_arrow_v2.py:105-114 | Without a mapping function, `_nop` yields `None` for every argument. A rename of `None` is an `AttributeError`. A rename of a batch succeeds iff `Rename` does, keeps the bytes, keeps the rows unless the batch has no columns (then 0), and can fail only with a lookup error. |
| Streams.StreamRestSums | neo4j_arrow_v2.py:130-133 | The loop over the remaining batches adds exactly the rows and bytes of the batches from its start up to where it stops. |
| Streams.WriteBatches | neo4j_arrow_v2.py:109-137 | No mapping, a zero-row first batch, or a first batch without columns raises "empty" before any connection. With a mapping, no first batch raises the `AttributeError` of renaming `None`, and a first batch whose rename fails raises that lookup `KeyError`, both before any connection. Every fault is one of these or a transport fault, which happens only when the stream cannot be opened or its close on leaving `with writer:` raises. A success has entered `_client()` and reports the totals of the committed prefix. |
| Streams.StopAtFailure | neo4j_arrow_v2.py:130-135 | On batches of one schema whose first batch renames, the loop stops only at the failing write, or at the end when no write fails. |
| Streams.SchemaChangeStops | neo4j_arrow_v2.py:125-135 | A later batch whose mapped schema differs from the mapped first batch's, the schema the stream was opened with, ends the loop there: the writer's refusal is caught like a failed write. |
| Streams.SchemaChangeExample | neo4j_arrow_v2.py:125-137 | A column that changes type after a first batch of 1 row and 8 bytes leaves the counts at `(1, 8)`, and nothing is raised. |
| Streams.WriteBatchesComplete | neo4j_arrow_v2.py:124-137 | On an uninterrupted stream of one schema whose first batch has columns and rows, the rows and bytes are the sums over all batches. |
| Streams.WriteBatchesFailsAt | neo4j_arrow_v2.py:124-137 | On a stream of one schema whose first batch has columns and rows, when the write of batch `k` fails, the rows and bytes are the sums over the batches before `k`, and nothing is raised. |
| Streams.WriteTable | neo4j_arrow_v2.py:86-103 | The table write always enters `_client()`. It raises a transport fault exactly when the stream cannot be opened or its close on leaving `with writer:` raises. It reports the table's rows and bytes on success and `(0, 0)` when the write fails. The mapping is never applied. |
| Streams.WriteTableIgnoresMapping | neo4j_arrow_v2.py:86-103 | A table write has the same outcome whatever mapping function is passed, because `fn` is computed and never used. |
| ArrowClient.DefaultClient | neo4j_arrow_v2.py:18-30 | A client built from a host alone has port 8491, user `neo4j`, password `!twittertest`, no TLS, concurrency 4 and database `users200m`. It starts `READY` with no connection. |
| ArrowClient.Copy | neo4j_arrow_v2.py:44-50 | `copy()` keeps every connection parameter and the state, and has no live connection. |
| ArrowClient.RestoreIsCopy | neo4j_arrow_v2.py:35-50 | A client that is serialised (connection and call options dropped) and restored equals its copy, and serialising again gives the same attributes. |
| ArrowClient.CreateDatabaseRequest | neo4j_arrow_v2.py:139-151 | A non-empty config is sent as given. An empty config is replaced by the seven-key default whose name and concurrency are the client's database and concurrency. |
| ArrowClient.CreateDatabase | neo4j_arrow_v2.py:139-154 | Outside `READY` the call fails its assertion and changes nothing, and the assertion fault occurs only there. In `READY` it returns the reply to the request, or a transport fault when there is none. The state is `FEEDING_NODES` afterwards iff it already was, or the call started in `READY` and the reply is truthy. No other state change happens. |
| ArrowClient.NodesDone | neo4j_arrow_v2.py:164-169 | Outside `FEEDING_NODES` the call fails its assertion and changes nothing, and the assertion fault occurs only there; otherwise it returns the reply or a transport fault. The state moves to `FEEDING_EDGES` iff the reply to `NODE_LOAD_DONE` is truthy. |
| ArrowClient.EdgesDone | neo4j_arrow_v2.py:182-188 | Outside `FEEDING_EDGES` the call fails its assertion and changes nothing, and the assertion fault occurs only there; otherwise it returns the reply or a transport fault. The state moves to `AWAITING_GRAPH` iff the reply to `RELATIONSHIP_LOAD_DONE` is truthy. |
| ArrowClient.WriteNodes | neo4j_arrow_v2.py:156-162 | Requires `FEEDING_NODES`, otherwise fails its assertion and changes nothing; the assertion fault occurs only there. Returns what the table or batch stream returns. Never changes the state or the target, only possibly the connection. Without a mapping function, batch input always raises "empty". |
| ArrowClient.WriteEdges | neo4j_arrow_v2.py:171-180 | The same guarantees as `WriteNodes`, guarded by `FEEDING_EDGES`. |
| ArrowClient.Wait | neo4j_arrow_v2.py:190-194 | As written, the call `client.wait()` faults with `NameError` and leaves the client unchanged. |
| ArrowClient.WaitWithSelf | neo4j_arrow_v2.py:190-194 | With the `self` it lacks, `wait` fails its assertion outside `AWAITING_GRAPH` and otherwise succeeds leaving the client at `AWAITING_GRAPH`. |
| ArrowClient.WaitDiscrepancy | neo4j_arrow_v2.py:190-194 | In `AWAITING_GRAPH`, where `wait` is meant to succeed, the method as written raises `NameError` while the corrected one succeeds. |
| ArrowClient.WaitNeverFinishes | neo4j_arrow_v2.py:190-194 | From `AWAITING_GRAPH`, neither version of `wait` leaves that state. |
| ArrowClient.Apply | neo4j_arrow_v2.py:139-194 | Any single call, with `wait` as corrected, keeps the target. It moves the state at most one step forward, only through a control action with a truthy reply, and never into `GRAPH_READY`. |
| ArrowClient.RunMonotone | neo4j_arrow_v2.py:139-194 | Over any sequence of calls the state never moves backwards. It advances at most one step per call, and `GRAPH_READY` is never entered. |
| ArrowClient.GraphReadyUnreachable | neo4j_arrow_v2.py:9-14 | `GRAPH_READY` ("done") is unreachable from a new client. |
| ArrowClient.CopyBehavesAlike | neo4j_arrow_v2.py:44-50 | A copy answers every call exactly as the original does and ends in the same state. |
| Tasks.Normalise | neo4j_pq_v2.py:66-67 | A single task dictionary becomes the one-element list holding it. A list is kept as it is. |
| Tasks.Dispatch | neo4j_pq_v2.py:83-89 | A task goes to the node consumer iff it has `key`, and to the edge consumer iff it has `src` but not `key`. It is refused iff it has neither. |
| Tasks.TaskCounts | neo4j_pq_v2.py:69-90 | A task never changes the client's state or target, only possibly its connection. |
| Tasks.TaskCountsDispatch | neo4j_pq_v2.py:69-90 | Per key set: no consumer, or no fragment, gives the matching fault. A node or edge task otherwise runs the guarded write of the fragment's batches with its rename. |
| Tasks.TaskCountsIgnoresConnection | neo4j_arrow_v2.py:52-66 | A task's result does not depend on whether the client already holds a connection. |
| Tasks.Worker | neo4j_pq_v2.py:61-93 | The worker's summary is the first fault raised, or else the rows and bytes summed over the tasks in order. On one dictionary it is exactly that task's summary. |
| Tasks.SumContributions | neo4j_pq_v2.py:81-93 | The loop gives the sums of all contributions. It faults iff some task faults, and then with the fault of the first such task. |
| Tasks.OneTaskSum | neo4j_pq_v2.py:66-67 | A single contribution sums to itself. |
| Tasks.FaultPersists | neo4j_pq_v2.py:83-93 | Once a task raises, the worker's result is that fault whatever follows. |
| Tasks.WorkList | neo4j_pq_v2.py:159-170 | There is one task per fragment, in order, each carrying its fragment. Tasks are tagged for nodes when `nodes` is in the location (checked first) and for relationships when `relationships` is. The list is empty otherwise. No task has keys that clash with the consumers' parameters. |
| Orchestrator.PoolSize | neo4j_pq_v2.py:176 | The pool size is at most the number of tasks. It is the smaller of that number and the request when one is made, and of that number and the automatic size otherwise. |
| Orchestrator.PoolSizeAccepted | neo4j_pq_v2.py:176-189 | The pool can start (size at least one) iff there is work and either the request is positive, or nothing was requested and the automatic size is positive. |
| Orchestrator.RangeUp | neo4j_pq_v2.py:184 | `range` with a positive step starts at `start`, climbs by exactly `step`, stays below `stop`, and its last element is within one step of `stop`. |
| Orchestrator.Range | neo4j_pq_v2.py:184 | `range` faults iff the step is zero. |
| Orchestrator.TickSchedule | neo4j_pq_v2.py:179-184 | Zero tasks fault, because the step becomes 0. Otherwise the ticks start at 1, climb strictly and end at `n`. From 33 tasks on they climb by 33 up to the final `n`, which is within 33 of the previous tick. |
| Orchestrator.TickScheduleShort | neo4j_pq_v2.py:179-184 | Below 33 tasks the ticks are `[1, n]`, or `[1]` when `n` is 1. |
| Orchestrator.Reverse | neo4j_pq_v2.py:185 | The reversed list holds the same ticks back to front. |
| Orchestrator.Collect | neo4j_pq_v2.py:194-198 | Results are appended in completion order and the loop stops at the first fault. The remaining ticks are always the reversed tail of the schedule, and every tick drawn was reached. For a well-formed schedule and no fault, every tick is drawn exactly once and none remain. |
| Orchestrator.RunPool | neo4j_pq_v2.py:188-194 | The pool yields, in completion order, `worker` applied to each task dictionary. |
| Orchestrator.ArrangedAllOk | neo4j_pq_v2.py:194 | Every task succeeds exactly when every completion does. |
| Orchestrator.PositionOf | neo4j_pq_v2.py:194 | Every task is completed at some position. |
| Orchestrator.Totals | neo4j_pq_v2.py:194-195 | When every task succeeds, the collected rows and bytes equal the sums over the tasks in their own order. |
| Orchestrator.SumByPermutation | neo4j_pq_v2.py:194 | A sum does not depend on the order in which the pool completes its terms. |
| Orchestrator.Gather | neo4j_pq_v2.py:194-206 | Every collected result is the summary of the task completed at its position. With every task successful: all of them, the measured duration, and the totals of the tasks. Otherwise: duration 0 and the next completed task is one that raised. |
| Orchestrator.ChildMain | neo4j_pq_v2.py:144-206 | The child always answers. Zero tasks or a pool size below one give `([], 0.0)`. Otherwise it gives the `Gather` guarantees over the workers' summaries. |
| Orchestrator.SummariesIgnoreConnection | neo4j_pq_v2.py:127 | The workers' summaries are the same for the caller's client and its connection-less copy. |
| Orchestrator.FanOut | neo4j_pq_v2.py:117-141 | A timeout gives `([], 0)`. Otherwise the child's answer is in terms of the caller's own client: collected summaries, and with a launching pool the `Gather` guarantees. |

## Left out

- Arrow Flight connection setup, TLS and basic-token authentication (`_client`). This is a foreign library. A connection is one boolean, and a connection or authentication failure is folded into the transport outcome.
- The client's `connected` flag means that `_client()` was entered, not that a live connection exists. The source sets `self.client` only after `authenticate_basic_token` returns, so after a failed connect or authentication it holds no connection, while the model's flag is already set. The flag never changes a result (`TaskCountsIgnoresConnection`), so only this bookkeeping differs.
- JSON encoding of actions and descriptors, `do_action` and `do_put`. These are transport details. Replies are a small JSON datatype with the source language's truthiness, and streams are a `StreamOutcome`. JSON numbers are integers only, so a float reply such as `0.0`, which is falsy, is not represented.
- Pickling, `subprocess.Popen`/`communicate` and the stdin/stdout/stderr plumbing. This is process I/O. `fan_out` calls the child's main directly, and the timeout is a boolean.
- The `multiprocessing` pool, `fork`, `set_start_method` and the `_initializer` global. This is concurrency. The pool is a permutation of per-task results, each computed by `worker` on one task dictionary. The global client is the configured client. Its `assert _worker_na_client` always holds, because a client object is always truthy.
- Parquet dataset discovery, fragment scanning and `batch_size`. This is a foreign library. A fragment is the sequence of batches its scanner yields, and dataset errors are not modelled.
- Wall-clock timing, `round(delta, 2)` and `cpu_count() * 1.3`. These are floats and clocks. The duration is a `real` parameter and the automatic pool size an opaque natural.
- Logging, `print` of errors, the progress-bar characters and `__str__`. These are output only. `Collect` counts the ticks it draws instead.
- The worker's name `worker-{pid}` is a natural `pid`.
- Tasks.Worker: runs each task against the client as received, not against the client its earlier tasks connected. `TaskCountsIgnoresConnection` shows that the connection does not change a task's result.
- Streams.WriteBatchesFailsAt: stated for `k` up to the number of batches. A failure index past the end behaves like `Completes`.
- Streams.WriteTable: any `FailsAt` stands for the one table write failing. The table is a single batch-shaped record.
- ArrowClient.Wait: models the call without arguments. `client.wait(5)` and `client.wait(timeout=5)` raise `TypeError` at the call, because the client already fills the one parameter. Those calls are not modelled; they fault before the body runs, like `client.wait()`, and change nothing.
- Orchestrator.FanOut: a timeout returns `([], 0)` in the source, here `([], 0.0)`. The two compare equal in the source language.

## Findings

| source | as written | input that shows it | evidently intended | confidence | as-written member | corrected member |
|---|---|---|---|---|---|---|
| neo4j_arrow_v2.py:190-194 | `def wait(timeout: int = 0)` has no `self`, yet its body reads and writes `self.state`. | `client.wait()` on any client binds the client to `timeout`, and `self` is then an unbound name, so the call raises `NameError`. | `def wait(self, timeout: int = 0)`, which asserts `AWAITING_GRAPH` and keeps that state. | not executed | ArrowClient.Wait, ArrowClient.WaitDiscrepancy | ArrowClient.WaitWithSelf, used by ArrowClient.Apply |

=== FILE: arrow_client.dfy ===
/** The bulk-load client: connection parameters, the protocol state of one
    load session, and the operations that move it. Every operation returns
    the client after the call together with its result, so a fault leaves a
    visible client behind, as an exception does in the source. The remote
    service is an oracle `send` from control actions to replies, where no
    reply stands for a failed `do_action`. */
module ArrowClient {
  import opened Outcomes
  import opened Batches
  import opened Streams

  /** The five protocol states, in protocol order. */
  datatype ClientState = Ready | FeedingNodes | FeedingEdges | AwaitingGraph | GraphReady

  function Rank(s: ClientState): nat {
    match s
    case Ready => 0
    case FeedingNodes => 1
    case FeedingEdges => 2
    case AwaitingGraph => 3
    case GraphReady => 4
  }

  /** A client. `connected` records that `_client()` has been entered, which
      builds the connection and call options lazily on first use; they are
      never serialised. A connection or authentication failure inside
      `_client()` is not told apart from a later transport failure. */
  datatype Client = Client(host: string, port: int, user: string, password: string,
                           tls: bool, concurrency: int, database: string,
                           state: ClientState, connected: bool)

  const DefaultPort: int := 8491
  const DefaultUser: string := "neo4j"
  const DefaultPassword: string := "!twittertest"
  const DefaultConcurrency: int := 4
  const DefaultDatabase: string := "users200m"

  /** The constructor: a fresh client is READY and has no connection. */
  function NewClient(host: string, port: int, user: string, password: string,
                     tls: bool, concurrency: int, database: string): Client
  {
    Client(host, port, user, password, tls, concurrency, database, Ready, false)
  }

  /** The constructor called with only a host. */
  function DefaultClient(host: string): (c: Client)
    ensures c.port == 8491 && c.user == "neo4j" && c.password == "!twittertest"
    ensures !c.tls && c.concurrency == 4 && c.database == "users200m"
    ensures c.state == Ready && !c.connected
  {
    NewClient(host, DefaultPort, DefaultUser, DefaultPassword, false, DefaultConcurrency, DefaultDatabase)
  }

  /** Two clients denote the same session target. */
  predicate SameTarget(a: Client, b: Client) {
    a.host == b.host && a.port == b.port && a.user == b.user && a.password == b.password
    && a.tls == b.tls && a.concurrency == b.concurrency && a.database == b.database
  }

  /** `copy()`: same connection parameters and the same protocol state, but
      a new object without a connection. */
  function Copy(c: Client): (r: Client)
    ensures SameTarget(r, c) && r.state == c.state
    ensures !r.connected
  {
    NewClient(c.host, c.port, c.user, c.password, c.tls, c.concurrency, c.database).(state := c.state)
  }

  /** What `__getstate__` hands to the serialiser: every attribute but the
      connection and its call options. */
  datatype Snapshot = Snapshot(host: string, port: int, user: string, password: string,
                               tls: bool, concurrency: int, database: string, state: ClientState)

  function GetState(c: Client): Snapshot {
    Snapshot(c.host, c.port, c.user, c.password, c.tls, c.concurrency, c.database, c.state)
  }

  /** Deserialisation: the attributes come back, the connection does not,
      so the next use reconnects lazily. */
  function Restore(s: Snapshot): Client {
    Client(s.host, s.port, s.user, s.password, s.tls, s.concurrency, s.database, s.state, false)
  }

  /** A client that crossed a process boundary is the same as its copy. */
  lemma {:induction false} RestoreIsCopy(c: Client)
    ensures Restore(GetState(c)) == Copy(c)
    ensures GetState(Restore(GetState(c))) == GetState(c)
  {
  }

  // ---------------------------------------------------------------------------
  // Control actions.

  /** A decoded JSON reply. Numbers are integers here. */
  datatype Json =
    | JNull
    | JBool(b: bool)
    | JInt(i: int)
    | JStr(s: string)
    | JArray(items: seq<Json>)
    | JObject(members: map<string, Json>)

  /** Truth value of a reply in the source's language. */
  predicate Truthy(j: Json) {
    match j
    case JNull => false
    case JBool(b) => b
    case JInt(i) => i != 0
    case JStr(s) => |s| > 0
    case JArray(items) => |items| > 0
    case JObject(members) => |members| > 0
  }

  datatype Action = Action(name: string, body: map<string, Json>)

  datatype Step<T> = Step(client: Client, result: Result<T>)

  /** The database definition sent when the caller gives none. */
  function DefaultConfig(c: Client): map<string, Json> {
    map[ "name" := JStr(c.database),
         "concurrency" := JInt(c.concurrency),
         "high_io" := JBool(true),
         "force" := JBool(true),
         "record_format" := JStr("aligned"),
         "id_property" := JStr("id"),
         "id_type" := JStr("STRING") ]
  }

  /** The action `create_database` sends: the caller's config, or the default
      one when the caller's is empty. */
  function CreateDatabaseRequest(c: Client, action: string, config: map<string, Json>): (a: Action)
    ensures a.name == action
    ensures |config| > 0 ==> a.body == config
    ensures |config| == 0 ==> "name" in a.body && a.body["name"] == JStr(c.database)
    ensures |config| == 0 ==> "concurrency" in a.body && a.body["concurrency"] == JInt(c.concurrency)
    ensures |config| == 0 ==> |a.body| == 7
  {
    Action(action, if |config| == 0 then DefaultConfig(c) else config)
  }

  /** `_send_action`'s answer: the decoded reply, or the transport error it
      re-raises. */
  function Delivered(reply: Option<Json>): (r: Result<Json>)
    ensures r.Ok? <==> reply.Some?
    ensures r.Ok? ==> r.value == reply.value
    ensures r.Err? ==> r.fault == Transport
  {
    match reply
    case None => Err(Transport)
    case Some(j) => Ok(j)
  }

  /** One guarded control action: assert the required state, send the
      action, advance to `next` only on a truthy reply. A failing send
      propagates after `_client()` has been entered. */
  function Control(c: Client, required: ClientState, a: Action, next: ClientState,
                   send: Action -> Option<Json>): Step<Json>
  {
    if c.state != required then Step(c, Err(StateAssertion))
    else match send(a)
      case None => Step(c.(connected := true), Err(Transport))
      case Some(reply) =>
        Step(c.(connected := true, state := if Truthy(reply) then next else c.state), Ok(reply))
  }

  /** `create_database`: READY to FEEDING_NODES exactly on a truthy reply. */
  function CreateDatabase(c: Client, action: string, config: map<string, Json>,
                          send: Action -> Option<Json>): (r: Step<Json>)
    ensures c.state != Ready ==> r == Step(c, Err(StateAssertion))
    ensures r.result == Err(StateAssertion) <==> c.state != Ready
    ensures c.state == Ready ==> r.result == Delivered(send(CreateDatabaseRequest(c, action, config)))
    ensures r.client.state == FeedingNodes <==>
      c.state == FeedingNodes || (c.state == Ready && r.result.Ok? && Truthy(r.result.value))
    ensures r.client.state != FeedingNodes ==> r.client.state == c.state
    ensures SameTarget(r.client, c)
  {
    Control(c, Ready, CreateDatabaseRequest(c, action, config), FeedingNodes, send)
  }

  function NodesDoneRequest(c: Client): Action {
    Action("NODE_LOAD_DONE", map["name" := JStr(c.database)])
  }

  function EdgesDoneRequest(c: Client): Action {
    Action("RELATIONSHIP_LOAD_DONE", map["name" := JStr(c.database)])
  }

  /** `nodes_done`: FEEDING_NODES to FEEDING_EDGES exactly on a truthy reply. */
  function NodesDone(c: Client, send: Action -> Option<Json>): (r: Step<Json>)
    ensures c.state != FeedingNodes ==> r == Step(c, Err(StateAssertion))
    ensures r.result == Err(StateAssertion) <==> c.state != FeedingNodes
    ensures c.state == FeedingNodes ==> r.result == Delivered(send(NodesDoneRequest(c)))
    ensures r.client.state == FeedingEdges <==>
      c.state == FeedingEdges || (c.state == FeedingNodes && r.result.Ok? && Truthy(r.result.value))
    ensures r.client.state != FeedingEdges ==> r.client.state == c.state
    ensures SameTarget(r.client, c)
  {
    Control(c, FeedingNodes, NodesDoneRequest(c), FeedingEdges, send)
  }

  /** `edges_done`: FEEDING_EDGES to AWAITING_GRAPH exactly on a truthy reply. */
  function EdgesDone(c: Client, send: Action -> Option<Json>): (r: Step<Json>)
    ensures c.state != FeedingEdges ==> r == Step(c, Err(StateAssertion))
    ensures r.result == Err(StateAssertion) <==> c.state != FeedingEdges
    ensures c.state == FeedingEdges ==> r.result == Delivered(send(EdgesDoneRequest(c)))
    ensures r.client.state == AwaitingGraph <==>
      c.state == AwaitingGraph || (c.state == FeedingEdges && r.result.Ok? && Truthy(r.result.value))
    ensures r.client.state != AwaitingGraph ==> r.client.state == c.state
    ensures SameTarget(r.client, c)
  {
    Control(c, FeedingEdges, EdgesDoneRequest(c), AwaitingGraph, send)
  }

  /** `wait` as written, called as `client.wait()`: it declares no `self`,
      so the call binds the client to `timeout` and the body's `self` is an
      unbound name. The call faults before reading the state, and nothing
      changes. */
  function Wait(c: Client): (r: Step<()>)
    ensures r.client == c
    ensures r.result.Err? && r.result.fault == UnboundSelf
  {
    Step(c, Err(UnboundSelf))
  }

  /** `wait` with the `self` parameter it evidently lacks: it asserts
      AWAITING_GRAPH and leaves the state at AWAITING_GRAPH. */
  function WaitWithSelf(c: Client): (r: Step<()>)
    ensures c.state != AwaitingGraph ==> r == Step(c, Err(StateAssertion))
    ensures c.state == AwaitingGraph ==> r == Step(c, Ok(()))
  {
    if c.state != AwaitingGraph then Step(c, Err(StateAssertion))
    else Step(c.(state := AwaitingGraph), Ok(()))
  }

  /** The discrepancy: at the one state where `wait` is meant to succeed,
      the method as written still raises. */
  lemma WaitDiscrepancy(c: Client)
    requires c.state == AwaitingGraph
    ensures Wait(c).result == Err(UnboundSelf)
    ensures WaitWithSelf(c).result == Ok(())
  {
  }

  /** The calling convention exposes no way to finish the session. */
  lemma WaitNeverFinishes(c: Client)
    requires c.state == AwaitingGraph
    ensures Wait(c).client.state == AwaitingGraph
    ensures WaitWithSelf(c).client.state == AwaitingGraph
  {
  }

  // ---------------------------------------------------------------------------
  // Data writes.

  /** What a write is given: one in-memory table or an iterable of batches. */
  datatype WriteInput = TableInput(table: Batch) | BatchInput(batches: seq<Batch>)

  /** The counts a write produces on its input, state guard aside. */
  function Stream(input: WriteInput, m: Mapping, o: StreamOutcome): Written {
    match input
    case TableInput(t) => WriteTable(t, m, o)
    case BatchInput(bs) => WriteBatches(bs, m, o)
  }

  function Write(c: Client, required: ClientState, input: WriteInput, m: Mapping,
                 o: StreamOutcome): Step<Counts>
  {
    if c.state != required then Step(c, Err(StateAssertion))
    else
      var w := Stream(input, m, o);
      Step(c.(connected := c.connected || w.connected), w.result)
  }

  /** `write_nodes`: guarded by FEEDING_NODES, never changes the state. */
  function WriteNodes(c: Client, input: WriteInput, m: Mapping, o: StreamOutcome): (r: Step<Counts>)
    ensures c.state != FeedingNodes ==> r == Step(c, Err(StateAssertion))
    ensures r.result == Err(StateAssertion) <==> c.state != FeedingNodes
    ensures c.state == FeedingNodes ==> r.result == Stream(input, m, o).result
    ensures r.client.state == c.state && SameTarget(r.client, c)
    ensures r.client == c.(connected := r.client.connected)
    ensures c.state == FeedingNodes && input.BatchInput? && m.Nop? ==> r == Step(c, Err(EmptyBatches))
  {
    Write(c, FeedingNodes, input, m, o)
  }

  /** `write_edges`: guarded by FEEDING_EDGES, never changes the state. */
  function WriteEdges(c: Client, input: WriteInput, m: Mapping, o: StreamOutcome): (r: Step<Counts>)
    ensures c.state != FeedingEdges ==> r == Step(c, Err(StateAssertion))
    ensures r.result == Err(StateAssertion) <==> c.state != FeedingEdges
    ensures c.state == FeedingEdges ==> r.result == Stream(input, m, o).result
    ensures r.client.state == c.state && SameTarget(r.client, c)
    ensures r.client == c.(connected := r.client.connected)
    ensures c.state == FeedingEdges && input.BatchInput? && m.Nop? ==> r == Step(c, Err(EmptyBatches))
  {
    Write(c, FeedingEdges, input, m, o)
  }

  // ---------------------------------------------------------------------------
  // Sessions as sequences of operations.

  datatype Op =
    | CreateDatabaseOp(action: string, config: map<string, Json>)
    | WriteNodesOp(input: WriteInput, mapping: Mapping, outcome: StreamOutcome)
    | NodesDoneOp
    | WriteEdgesOp(input: WriteInput, mapping: Mapping, outcome: StreamOutcome)
    | EdgesDoneOp
    | WaitOp

  datatype Reply = ActionReply(json: Json) | WriteReply(counts: Counts) | NoReply

  function Lift<T>(s: Step<T>, wrap: T -> Reply): Step<Reply> {
    match s.result
    case Ok(v) => Step(s.client, Ok(wrap(v)))
    case Err(f) => Step(s.client, Err(f))
  }

  /** One client call, with `wait` as evidently intended (see `Wait`). The
      state moves at most one step forward, only by a control action, and
      never to GRAPH_READY. */
  function Apply(c: Client, op: Op, send: Action -> Option<Json>): (r: Step<Reply>)
    ensures SameTarget(r.client, c)
    ensures Rank(c.state) <= Rank(r.client.state) <= Rank(c.state) + 1
    ensures r.client.state != c.state ==>
      r.result.Ok? && r.result.value.ActionReply? && Truthy(r.result.value.json)
    ensures r.client.state == GraphReady ==> c.state == GraphReady
  {
    match op
    case CreateDatabaseOp(action, config) => Lift(CreateDatabase(c, action, config, send), j => ActionReply(j))
    case WriteNodesOp(input, m, o) => Lift(WriteNodes(c, input, m, o), n => WriteReply(n))
    case NodesDoneOp => Lift(NodesDone(c, send), j => ActionReply(j))
    case WriteEdgesOp(input, m, o) => Lift(WriteEdges(c, input, m, o), n => WriteReply(n))
    case EdgesDoneOp => Lift(EdgesDone(c, send), j => ActionReply(j))
    case WaitOp => Lift(WaitWithSelf(c), u => NoReply)
  }

  /** The client after a sequence of calls. */
  function Run(c: Client, ops: seq<Op>, send: Action -> Option<Json>): Client
    decreases |ops|
  {
    if |ops| == 0 then c else Run(Apply(c, ops[0], send).client, ops[1..], send)
  }

  /** No sequence of calls moves a session backwards or finishes it. */
  lemma {:induction false} RunMonotone(c: Client, ops: seq<Op>, send: Action -> Option<Json>)
    ensures Rank(Run(c, ops, send).state) >= Rank(c.state)
    ensures Rank(Run(c, ops, send).state) <= Rank(c.state) + |ops|
    ensures c.state != GraphReady ==> Run(c, ops, send).state != GraphReady
    ensures SameTarget(Run(c, ops, send), c)
    decreases |ops|
  {
    if |ops| > 0 {
      RunMonotone(Apply(c, ops[0], send).client, ops[1..], send);
    }
  }

  /** GRAPH_READY is unreachable from a new client. */
  lemma GraphReadyUnreachable(host: string, ops: seq<Op>, send: Action -> Option<Json>)
    ensures Run(DefaultClient(host), ops, send).state != GraphReady
  {
    RunMonotone(DefaultClient(host), ops, send);
  }

  /** A copy answers every call exactly as the original does and lands in
      the same state. */
  lemma CopyBehavesAlike(c: Client, op: Op, send: Action -> Option<Json>)
    ensures Apply(Copy(c), op, send).result == Apply(c, op, send).result
    ensures Apply(Copy(c), op, send).client.state == Apply(c, op, send).client.state
  {
  }
}

=== FILE: batches.dfy ===
/** Record batches as the loader sees them: a schema (field names and types),
    a row count and a total buffer size. Column data is never inspected, so a
    batch keeps only what the accounting and the renames touch. */
module Batches {

  /** One schema field; `dtype` stands for everything but the name (type,
      nullability, metadata). */
  datatype Field = Field(name: string, dtype: string)

  datatype Batch = Batch(fields: seq<Field>, numRows: nat, bytes: nat)

  /** A `(rows, bytes)` pair as returned by the write operations. */
  datatype Counts = Counts(rows: nat, bytes: nat)

  function Names(fields: seq<Field>): (names: seq<string>)
    ensures |names| == |fields|
    ensures forall i :: 0 <= i < |fields| ==> names[i] == fields[i].name
  {
    seq(|fields|, i requires 0 <= i < |fields| => fields[i].name)
  }

  /** A batch is truthy in the source's language exactly when it has rows. */
  predicate HasRows(b: Batch) {
    b.numRows > 0
  }

  function Add(a: Counts, b: Batch): Counts {
    Counts(a.rows + b.numRows, a.bytes + b.bytes)
  }

  /** Sum of `num_rows` and of the buffer sizes over a sequence of batches,
      accumulated from the front as the source's loop does. */
  function Total(bs: seq<Batch>): Counts {
    if |bs| == 0 then Counts(0, 0) else Add(Total(bs[..|bs| - 1]), bs[|bs| - 1])
  }

  /** Batches from one fragment share one schema. */
  predicate SameSchema(bs: seq<Batch>) {
    forall i :: 0 <= i < |bs| ==> bs[i].fields == bs[0].fields
  }

  lemma {:induction false} TotalConcat(a: seq<Batch>, b: seq<Batch>)
    ensures Total(a + b).rows == Total(a).rows + Total(b).rows
    ensures Total(a + b).bytes == Total(a).bytes + Total(b).bytes
    decreases |b|
  {
    if |b| == 0 {
      assert a + b == a;
    } else {
      var b' := b[..|b| - 1];
      assert (a + b)[..|a + b| - 1] == a + b';
      TotalConcat(a, b');
    }
  }
}

=== FILE: orchestrator.dfy ===
/** The child process behind `fan_out`: it builds the work list, sizes the
    process pool, lays out the progress-bar ticks and collects the workers'
    summaries in the order the pool completes them. Also `fan_out` itself,
    with the child process and its pipes reduced to a call. */
module Orchestrator {
  import opened Outcomes
  import opened Batches
  import opened Streams
  import opened ArrowClient
  import opened Tasks

  // ---------------------------------------------------------------------------
  // Pool size.

  /** `min(len(work), processes or auto)`: a requested size of 0 is falsy
      and falls back to `auto`, the size derived from the CPU count. */
  function PoolSize(n: nat, requested: int, auto: nat): (p: int)
    ensures p <= n
    ensures requested != 0 ==> p <= requested && (p == n || p == requested)
    ensures requested == 0 ==> p <= auto && (p == n || p == auto)
  {
    var wanted := if requested != 0 then requested else auto;
    if n < wanted then n else wanted
  }

  /** The pool accepts its size exactly when there is work and the request,
      or the automatic size when nothing was requested, is positive. */
  lemma PoolSizeAccepted(n: nat, requested: int, auto: nat)
    ensures PoolSize(n, requested, auto) >= 1 <==>
      n >= 1 && (requested >= 1 || (requested == 0 && auto >= 1))
  {
  }

  // ---------------------------------------------------------------------------
  // Progress ticks.

  /** `range(start, stop, step)` for a positive step. */
  function RangeUp(start: int, stop: int, step: nat): (r: seq<int>)
    requires step > 0
    ensures r == [] <==> start >= stop
    ensures r != [] ==> r[0] == start && stop <= r[|r| - 1] + step
    ensures forall i :: 0 <= i < |r| ==> start <= r[i] < stop
    ensures forall i, j :: 0 <= i < j < |r| ==> r[i] < r[j]
    ensures forall i :: 0 <= i < |r| - 1 ==> r[i + 1] == r[i] + step
    decreases stop - start
  {
    if start >= stop then [] else [start] + RangeUp(start + step, stop, step)
  }

  /** `range(start, stop, step)` for a step that is never negative here: a
      zero step is a ValueError. */
  function Range(start: int, stop: int, step: nat): (r: Result<seq<int>>)
    ensures r.Err? <==> step == 0
    ensures r.Err? ==> r.fault == RangeStepZero
    ensures r.Ok? ==> r.value == RangeUp(start, stop, step)
  {
    if step == 0 then Err(RangeStepZero) else Ok(RangeUp(start, stop, step))
  }

  /** `numTicks`: 33, unless the work list is shorter than that, when it is
      `int(len(work) / 0.25)`, four times the length. */
  function TickStep(n: nat): nat {
    if n / 33 == 0 then 4 * n else 33
  }

  predicate StrictlyIncreasing(s: seq<int>) {
    forall i, j :: 0 <= i < j < |s| ==> s[i] < s[j]
  }

  /** A usable tick schedule for `n` tasks: it starts at 1, climbs strictly
      and ends at `n`. */
  predicate TickShape(s: seq<int>, n: nat) {
    |s| > 0 && s[0] == 1 && s[|s| - 1] == n && StrictlyIncreasing(s)
  }

  /** `[n for n in range(1, len(work), numTicks)] + [len(work)]`. */
  function TickSchedule(n: nat): (r: Result<seq<int>>)
    ensures r.Err? <==> n == 0
    ensures r.Err? ==> r.fault == RangeStepZero
    ensures r.Ok? ==> TickShape(r.value, n)
    ensures n >= 33 ==>
      (r.Ok? && n <= r.value[|r.value| - 2] + 33 &&
       forall i :: 0 <= i < |r.value| - 2 ==> r.value[i + 1] == r.value[i] + 33)
  {
    match Range(1, n, TickStep(n))
    case Err(f) => Err(f)
    case Ok(rs) => Ok(rs + [n])
  }

  /** Below 33 tasks the step exceeds the length: one tick at the first
      result and one at the last. */
  lemma TickScheduleShort(n: nat)
    requires 1 <= n < 33
    ensures TickSchedule(n) == Ok(if n == 1 then [1] else [1, n])
  {
    assert TickStep(n) == 4 * n;
    if n > 1 {
      assert RangeUp(1 + 4 * n, n, 4 * n) == [];
      assert RangeUp(1, n, 4 * n) == [1];
      assert Range(1, n, TickStep(n)) == Ok([1]);
      assert TickSchedule(n) == Ok([1] + [n]);
      assert [1] + [n] == [1, n];
    } else {
      assert RangeUp(1, 1, 4) == [];
      assert TickSchedule(1) == Ok([] + [1]);
      assert [] + [1] == [1];
    }
  }

  /** `list.reverse()`. */
  function Reverse(s: seq<int>): (r: seq<int>)
    ensures |r| == |s|
    ensures forall i :: 0 <= i < |s| ==> r[i] == s[|s| - 1 - i]
  {
    if s == [] then [] else Reverse(s[1..]) + [s[0]]
  }

  // ---------------------------------------------------------------------------
  // The main loop.

  /** The loop over `imap_unordered`: the summaries arrive in completion
      order and are appended one at a time; whenever their count reaches
      the tick at the end of the reversed schedule, a tick is drawn and
      popped. The first fault a worker raised ends the loop. `drawn` counts
      the ticks drawn. */
  method Collect(completed: seq<Result<WorkResult>>, schedule: seq<int>)
    returns (results: seq<WorkResult>, ticks: seq<int>, drawn: nat, fault: Option<Fault>)
    ensures |results| <= |completed|
    ensures forall p :: 0 <= p < |results| ==> completed[p] == Ok(results[p])
    ensures fault.None? <==> forall p :: 0 <= p < |completed| ==> completed[p].Ok?
    ensures fault.None? ==> |results| == |completed|
    ensures fault.Some? ==> |results| < |completed| && completed[|results|] == Err(fault.value)
    ensures drawn <= |schedule| && ticks == Reverse(schedule[drawn..])
    ensures forall j :: 0 <= j < drawn ==> schedule[j] <= |results|
    ensures TickShape(schedule, |completed|) && fault.None? ==> drawn == |schedule| && ticks == []
  {
    results, ticks, drawn, fault := [], Reverse(schedule), 0, None;
    var p := 0;
    while p < |completed|
      invariant 0 <= p <= |completed| && |results| == p
      invariant forall q :: 0 <= q < p ==> completed[q] == Ok(results[q])
      invariant drawn <= |schedule| && ticks == Reverse(schedule[drawn..])
      invariant forall j :: 0 <= j < drawn ==> schedule[j] <= p
      invariant TickShape(schedule, |completed|) && drawn < |schedule| ==> schedule[drawn] > p
    {
      if completed[p].Err? {
        fault := Some(completed[p].fault);
        return;
      }
      results := results + [completed[p].value];
      if ticks != [] && |results| == ticks[|ticks| - 1] {
        assert schedule[drawn..][1..] == schedule[drawn + 1..];
        ticks := ticks[..|ticks| - 1];
        drawn := drawn + 1;
      }
      p := p + 1;
    }
  }

  // ---------------------------------------------------------------------------
  // The child process.

  /** The configuration the child unpickles. */
  datatype Config = Config(processes: int, client: Client)

  function Iota(n: nat): (r: seq<nat>)
    ensures |r| == n && forall i :: 0 <= i < n ==> r[i] == i
  {
    seq(n, i requires 0 <= i < n => i)
  }

  /** The completion order of the pool: every task index exactly once. */
  predicate IsPermutation(order: seq<nat>, n: nat) {
    (forall p :: 0 <= p < |order| ==> order[p] < n) && multiset(order) == multiset(Iota(n))
  }

  /** What `worker` returns for each task dictionary of the work list. */
  function Summaries(c: Client, work: seq<Task>, outcome: nat -> StreamOutcome, pid: nat -> nat)
    : (s: seq<Result<WorkResult>>)
    ensures |s| == |work|
  {
    seq(|work|, i requires 0 <= i < |work| => TaskSummary(c, work[i], outcome(i), pid(i)))
  }

  /** `completed` lists the summaries `summaries` in the order `order`. */
  predicate Arranged(completed: seq<Result<WorkResult>>, summaries: seq<Result<WorkResult>>, order: seq<nat>) {
    |completed| == |order| &&
    forall p :: 0 <= p < |order| ==> order[p] < |summaries| && completed[p] == summaries[order[p]]
  }

  /** Every collected result is the summary of the task completed at its
      position. */
  predicate Collected(results: seq<WorkResult>, summaries: seq<Result<WorkResult>>, order: seq<nat>) {
    |results| <= |order| &&
    forall j :: 0 <= j < |results| ==> order[j] < |summaries| && summaries[order[j]] == Ok(results[j])
  }

  predicate AllOk(summaries: seq<Result<WorkResult>>) {
    forall i :: 0 <= i < |summaries| ==> summaries[i].Ok?
  }

  /** The task completed right after the collected ones raised. */
  predicate FaultNext(results: seq<WorkResult>, summaries: seq<Result<WorkResult>>, order: seq<nat>) {
    |results| < |order| && order[|results|] < |summaries| && summaries[order[|results|]].Err?
  }

  /** The pool: `imap_unordered(worker, work)` hands each task dictionary
      to `worker` and yields the summaries in completion order. */
  method RunPool(c: Client, work: seq<Task>, outcome: nat -> StreamOutcome, pid: nat -> nat,
                 order: seq<nat>)
    returns (completed: seq<Result<WorkResult>>)
    requires forall p :: 0 <= p < |order| ==> order[p] < |work|
    ensures Arranged(completed, Summaries(c, work, outcome, pid), order)
  {
    completed := [];
    while |completed| < |order|
      invariant |completed| <= |order|
      invariant forall p :: 0 <= p < |completed| ==>
        completed[p] == Summaries(c, work, outcome, pid)[order[p]]
    {
      var i := order[|completed|];
      var o := outcome(i);
      var r := Worker(c, OneTask(work[i]), _ => o, pid(i));
      assert r == Summaries(c, work, outcome, pid)[i];
      completed := completed + [r];
    }
  }

  /** The pool can start: there is work and its size is positive. */
  predicate Launches(n: nat, requested: int, auto: nat) {
    n >= 1 && PoolSize(n, requested, auto) >= 1
  }

  function Rows(w: WorkResult): nat { w.rows }

  function Bytes(w: WorkResult): nat { w.bytes }

  function OkRows(r: Result<WorkResult>): nat { if r.Ok? then r.value.rows else 0 }

  function OkBytes(r: Result<WorkResult>): nat { if r.Ok? then r.value.bytes else 0 }

  /** The `__main__` block of the child: `elapsed` is what the clock reads
      for the loop, `auto` the automatic pool size, `order` the order in
      which the pool completes the tasks. Any exception lands in the final
      handler, which leaves the summaries collected so far and a zero
      duration. */
  method ChildMain(config: Config, data: DataSpec, fragments: seq<Fragment>, auto: nat,
              outcome: nat -> StreamOutcome, pid: nat -> nat, order: seq<nat>, elapsed: real)
    returns (results: seq<WorkResult>, delta: real)
    requires IsPermutation(order, |WorkList(data, fragments)|)
    ensures Collected(results, Summaries(config.client, WorkList(data, fragments), outcome, pid), order)
    ensures !Launches(|WorkList(data, fragments)|, config.processes, auto) ==> results == [] && delta == 0.0
    ensures Launches(|WorkList(data, fragments)|, config.processes, auto) ==>
      Gathered(Summaries(config.client, WorkList(data, fragments), outcome, pid), order, results, delta, elapsed)
  {
    var work := WorkList(data, fragments);
    var n := |work|;
    var processes := PoolSize(n, config.processes, auto);
    var schedule := TickSchedule(n);
    if schedule.Err? {
      return [], 0.0;
    }
    if processes < 1 {
      return [], 0.0;
    }
    var completed := RunPool(config.client, work, outcome, pid, order);
    results, delta := Gather(Summaries(config.client, work, outcome, pid), order, completed, schedule.value, elapsed);
  }

  /** What a started pool leaves behind: with every task summarised, all
      the summaries, the measured duration and the totals over the tasks
      in their own order; otherwise a zero duration, and the next task to
      complete is one that raised. */
  predicate Gathered(summaries: seq<Result<WorkResult>>, order: seq<nat>, results: seq<WorkResult>,
                     delta: real, elapsed: real)
  {
    (AllOk(summaries) ==>
       |results| == |summaries| && delta == elapsed &&
       SumBy(Rows, results) == SumBy(OkRows, summaries) &&
       SumBy(Bytes, results) == SumBy(OkBytes, summaries)) &&
    (!AllOk(summaries) ==> delta == 0.0 && FaultNext(results, summaries, order))
  }

  /** The loop of `__main__` and its aftermath, over the summaries in
      completion order. */
  method Gather(summaries: seq<Result<WorkResult>>, order: seq<nat>, completed: seq<Result<WorkResult>>,
                schedule: seq<int>, elapsed: real)
    returns (results: seq<WorkResult>, delta: real)
    requires IsPermutation(order, |summaries|)
    requires Arranged(completed, summaries, order)
    ensures Collected(results, summaries, order)
    ensures Gathered(summaries, order, results, delta, elapsed)
  {
    var ticks, drawn, fault;
    results, ticks, drawn, fault := Collect(completed, schedule);
    ArrangedAllOk(completed, summaries, order);
    if fault.Some? {
      assert completed[|results|] == summaries[order[|results|]];
      return results, 0.0;
    }
    assert |order| == |summaries| by {
      assert |multiset(order)| == |multiset(Iota(|summaries|))|;
    }
    Totals(summaries, order, results);
    delta := elapsed;
  }

  /** Every task is summarised exactly when every completion is. */
  lemma ArrangedAllOk(completed: seq<Result<WorkResult>>, summaries: seq<Result<WorkResult>>, order: seq<nat>)
    requires IsPermutation(order, |summaries|) && Arranged(completed, summaries, order)
    ensures AllOk(summaries) <==> forall p :: 0 <= p < |completed| ==> completed[p].Ok?
  {
    if !AllOk(summaries) {
      var i :| 0 <= i < |summaries| && summaries[i].Err?;
      var p := PositionOf(order, |summaries|, i);
      assert completed[p].Err?;
    }
  }

  /** Every task index occurs in the completion order. */
  lemma PositionOf(order: seq<nat>, n: nat, i: nat) returns (p: nat)
    requires IsPermutation(order, n) && i < n
    ensures p < |order| && order[p] == i
  {
    assert Iota(n)[i] == i;
    assert i in multiset(Iota(n));
    assert i in multiset(order);
    p :| 0 <= p < |order| && order[p] == i;
  }

  /** With every task summarised, the collected totals are the totals over
      the tasks in their own order, whatever order the pool completed them
      in. */
  lemma Totals(summaries: seq<Result<WorkResult>>, order: seq<nat>, results: seq<WorkResult>)
    requires IsPermutation(order, |summaries|) && |results| == |order|
    requires forall j :: 0 <= j < |results| ==> summaries[order[j]] == Ok(results[j])
    ensures SumBy(Rows, results) == SumBy(OkRows, summaries)
    ensures SumBy(Bytes, results) == SumBy(OkBytes, summaries)
  {
    var rowsAt := (i: nat) => if i < |summaries| then OkRows(summaries[i]) else 0;
    SumAlong(Rows, rowsAt, results, order);
    SumByPermutation(rowsAt, order, Iota(|summaries|));
    SumAlong(rowsAt, OkRows, Iota(|summaries|), summaries);
    var bytesAt := (i: nat) => if i < |summaries| then OkBytes(summaries[i]) else 0;
    SumAlong(Bytes, bytesAt, results, order);
    SumByPermutation(bytesAt, order, Iota(|summaries|));
    SumAlong(bytesAt, OkBytes, Iota(|summaries|), summaries);
  }

  // ---------------------------------------------------------------------------
  // Sums.

  function SumBy<T>(f: T -> nat, xs: seq<T>): nat {
    if xs == [] then 0 else f(xs[0]) + SumBy(f, xs[1..])
  }

  lemma {:induction false} SumByConcat<T>(f: T -> nat, a: seq<T>, b: seq<T>)
    ensures SumBy(f, a + b) == SumBy(f, a) + SumBy(f, b)
    decreases |a|
  {
    if a != [] {
      assert (a + b)[1..] == a[1..] + b;
      SumByConcat(f, a[1..], b);
    } else {
      assert a + b == b;
    }
  }

  /** Sums of two sequences that agree pointwise under their measures. */
  lemma {:induction false} SumAlong<T, U>(f: T -> nat, g: U -> nat, xs: seq<T>, ys: seq<U>)
    requires |xs| == |ys|
    requires forall j :: 0 <= j < |xs| ==> f(xs[j]) == g(ys[j])
    ensures SumBy(f, xs) == SumBy(g, ys)
    decreases |xs|
  {
    if xs != [] {
      SumAlong(f, g, xs[1..], ys[1..]);
    }
  }

  /** Taking out the term at position `k`. */
  lemma SumByRemove<T>(f: T -> nat, b: seq<T>, k: nat)
    requires k < |b|
    ensures SumBy(f, b) == f(b[k]) + SumBy(f, b[..k] + b[k + 1..])
  {
    var head, tail := b[..k], b[k + 1..];
    var rest := [b[k]] + tail;
    assert b == head + rest;
    SumByConcat(f, head, rest);
    assert rest[1..] == tail;
    assert SumBy(f, rest) == f(b[k]) + SumBy(f, tail);
    SumByConcat(f, head, tail);
  }

  lemma MultisetRemove(b: seq<nat>, k: nat)
    requires k < |b|
    ensures multiset(b[..k] + b[k + 1..]) == multiset(b) - multiset{b[k]}
  {
    assert b == b[..k] + [b[k]] + b[k + 1..];
  }

  /** A sum over indices does not depend on their order. */
  lemma {:induction false} SumByPermutation(f: nat -> nat, a: seq<nat>, b: seq<nat>)
    requires multiset(a) == multiset(b)
    ensures SumBy(f, a) == SumBy(f, b)
    decreases |a|
  {
    if a == [] {
      assert |b| == |multiset(b)| == 0;
    } else {
      var x := a[0];
      assert x in multiset(b);
      var k :| 0 <= k < |b| && b[k] == x;
      var rest := b[..k] + b[k + 1..];
      SumByRemove(f, b, k);
      MultisetRemove(b, k);
      assert multiset(a[1..]) == multiset(rest) by {
        MultisetRemove(a, 0);
        assert a[..0] + a[1..] == a[1..];
      }
      SumByPermutation(f, a[1..], rest);
    }
  }

  // ---------------------------------------------------------------------------
  // `fan_out`.

  /** A task's summary does not depend on whether the worker's client is
      already connected. */
  lemma SummariesIgnoreConnection(c: Client, work: seq<Task>, outcome: nat -> StreamOutcome,
                                  pid: nat -> nat, connected: bool)
    ensures Summaries(c.(connected := connected), work, outcome, pid) == Summaries(c, work, outcome, pid)
  {
    forall i | 0 <= i < |work|
      ensures TaskSummary(c.(connected := connected), work[i], outcome(i), pid(i))
           == TaskSummary(c, work[i], outcome(i), pid(i))
    {
      TaskCountsIgnoresConnection(c, work[i], outcome(i), connected);
    }
  }

  /** `fan_out`: the child receives a pickled copy of the client (its
      parameters and protocol state, no connection) together with the
      requested pool size, and answers with what its `__main__` computed;
      when it does not answer within the timeout, nothing is returned. The
      child's workers behave as the caller's client would. */
  method FanOut(client: Client, processes: int, data: DataSpec, fragments: seq<Fragment>, auto: nat,
                outcome: nat -> StreamOutcome, pid: nat -> nat, order: seq<nat>, elapsed: real,
                timedOut: bool)
    returns (results: seq<WorkResult>, delta: real)
    requires IsPermutation(order, |WorkList(data, fragments)|)
    ensures timedOut ==> results == [] && delta == 0.0
    ensures !timedOut ==> Collected(results, Summaries(client, WorkList(data, fragments), outcome, pid), order)
    ensures !timedOut && !Launches(|WorkList(data, fragments)|, processes, auto) ==> results == [] && delta == 0.0
    ensures !timedOut && Launches(|WorkList(data, fragments)|, processes, auto) ==>
      Gathered(Summaries(client, WorkList(data, fragments), outcome, pid), order, results, delta, elapsed)
  {
    if timedOut {
      return [], 0.0;
    }
    var sent := Restore(GetState(Copy(client)));
    RestoreIsCopy(Copy(client));
    assert sent == client.(connected := false);
    SummariesIgnoreConnection(client, WorkList(data, fragments), outcome, pid, false);
    results, delta := ChildMain(Config(processes, sent), data, fragments, auto, outcome, pid, order, elapsed);
  }
}

=== FILE: outcomes.dfy ===
/** Failure-carrying datatypes shared by the whole model. Every exception the
    bulk-loader core raises becomes one constructor of `Fault`. */
module Outcomes {

  /** The exceptions raised by the client and the orchestrator. */
  datatype Fault =
    | StateAssertion    // `assert self.state == ...` fails (AssertionError)
    | EmptyBatches      // "empty iterable of record batches provided"
    | MissingBatch      // a rename mapping applied to `None` (AttributeError)
    | FieldLookup(name: string)  // `Schema.field(name)` finds no unique field (KeyError)
    | Transport         // a remote action or stream fails to open, or a stream's close raises
    | UnboundSelf       // `wait` refers to `self`, which it never binds (NameError)
    | NoConsumer        // a task with neither a "key" nor a "src" entry
    | DuplicateArgument(name: string)  // a task key collides with a parameter name (TypeError)
    | MissingFragment   // a task without a "fragment" entry (KeyError)
    | RangeStepZero     // `range(..., 0)` (ValueError)

  datatype Option<+T> = None | Some(value: T)

  datatype Result<+T> = Ok(value: T) | Err(fault: Fault)
}

=== FILE: renames.dfy ===
/** The last-mile column renames that workers apply to every batch before it
    is streamed: positional, name-only. The loop of the source looks each
    ORIGINAL name up in the schema being rewritten, and the columnar
    library's `Schema.field(name)` fails unless exactly one field carries that
    name; the model keeps that lookup, so a rename can fail. */
module Renames {
  import opened Outcomes
  import opened Batches

  /** New names for node columns 0 and 1. */
  const NodeTargets: seq<string> := ["nodeId", "labels"]

  /** New names for relationship columns 0, 1 and 2. */
  const EdgeTargets: seq<string> := ["sourceNodeId", "targetNodeId", "relationshipType"]

  predicate Distinct(s: seq<string>) {
    forall a, b :: 0 <= a < b < |s| ==> s[a] != s[b]
  }

  function Occurrences(s: seq<string>, x: string): nat {
    if |s| == 0 then 0 else (if s[0] == x then 1 else 0) + Occurrences(s[1..], x)
  }

  /** The first field with the given name; the caller knows there is one. */
  function FirstNamed(fields: seq<Field>, name: string): Field
    requires Occurrences(Names(fields), name) > 0
  {
    assert Names(fields)[1..] == Names(fields[1..]);
    if fields[0].name == name then fields[0] else FirstNamed(fields[1..], name)
  }

  /** `Schema.field(name)`: the unique field of that name, or a KeyError. */
  function Lookup(fields: seq<Field>, name: string): Result<Field> {
    if Occurrences(Names(fields), name) == 1 then Ok(FirstNamed(fields, name))
    else Err(FieldLookup(name))
  }

  /** The loop of `map_batch`, from position `i` on: `orig` is the schema the
      loop enumerates, `cur` the schema being rewritten. */
  function RenameFrom(orig: seq<Field>, cur: seq<Field>, targets: seq<string>, i: nat): (r: Result<seq<Field>>)
    requires |cur| == |orig| && i <= |orig|
    ensures r.Err? ==> r.fault.FieldLookup?
    decreases |orig| - i
  {
    if i == |orig| then Ok(cur)
    else match Lookup(cur, orig[i].name)
      case Err(f) => Err(f)
      case Ok(field) =>
        var next := if i < |targets| then cur[i := field.(name := targets[i])] else cur;
        RenameFrom(orig, next, targets, i + 1)
  }

  // ---------------------------------------------------------------------------
  // Declarative description of the rename.

  /** The schema with positions below `|targets|` renamed, types kept. */
  function Relabel(fields: seq<Field>, targets: seq<string>): (r: seq<Field>)
    ensures |r| == |fields|
  {
    seq(|fields|, j requires 0 <= j < |fields| =>
      if j < |targets| then fields[j].(name := targets[j]) else fields[j])
  }

  /** The schema as the loop holds it when it reaches position `i`. */
  function PartialRelabel(fields: seq<Field>, targets: seq<string>, i: nat): (r: seq<Field>)
    ensures |r| == |fields|
  {
    seq(|fields|, j requires 0 <= j < |fields| =>
      if j < i && j < |targets| then fields[j].(name := targets[j]) else fields[j])
  }

  /** Every lookup the loop makes finds exactly one field. */
  predicate Renamable(fields: seq<Field>, targets: seq<string>) {
    forall i :: 0 <= i < |fields| ==>
      Occurrences(Names(PartialRelabel(fields, targets, i)), fields[i].name) == 1
  }

  // ---------------------------------------------------------------------------
  // The renames of the source.

  /** `batch.from_arrays(batch.columns, schema=fields)`: the columns and
      their buffers are kept under the new schema, and the row count is read
      from the first column, so a batch without columns comes back empty. */
  function FromArrays(b: Batch, fields: seq<Field>): Batch {
    Batch(fields, if |b.fields| == 0 then 0 else b.numRows, b.bytes)
  }

  /** Applies the positional rename `targets` to one batch. It succeeds
      exactly when every lookup is unambiguous, and then renames positions
      below `|targets|`, keeping every type, the field count and the data;
      a batch without fields loses its rows in the rebuild. */
  function Rename(targets: seq<string>, b: Batch): (r: Result<Batch>)
    ensures r.Ok? ==> r.value.fields == Relabel(b.fields, targets) && r.value.bytes == b.bytes
    ensures r.Ok? && |b.fields| > 0 ==> r.value.numRows == b.numRows
    ensures r.Ok? && |b.fields| == 0 ==> r.value.numRows == 0
    ensures |b.fields| == 0 ==> r.Ok?
    ensures r.Err? ==> r.fault.FieldLookup?
  {
    RenameFromSpec(b.fields, targets, 0);
    assert PartialRelabel(b.fields, targets, 0) == b.fields;
    match RenameFrom(b.fields, b.fields, targets, 0)
    case Ok(fs) => Ok(FromArrays(b, fs))
    case Err(f) => Err(f)
  }

  /** `map_batch` inside `_process_nodes`. */
  function RenameNodes(b: Batch): (r: Result<Batch>)
    ensures r.Ok? ==> |r.value.fields| == |b.fields|
    ensures r.Ok? && |b.fields| > 0 ==> r.value.fields[0].name == "nodeId"
    ensures r.Ok? && |b.fields| > 1 ==> r.value.fields[1].name == "labels"
    ensures r.Ok? ==> forall j :: 2 <= j < |b.fields| ==> r.value.fields[j] == b.fields[j]
    ensures r.Ok? ==> forall j :: 0 <= j < |b.fields| ==> r.value.fields[j].dtype == b.fields[j].dtype
    ensures r.Ok? ==> r.value.bytes == b.bytes
    ensures r.Ok? ==> r.value.numRows == if |b.fields| == 0 then 0 else b.numRows
  {
    Rename(NodeTargets, b)
  }

  /** `map_batch` inside `_process_edges`. */
  function RenameEdges(b: Batch): (r: Result<Batch>)
    ensures r.Ok? ==> |r.value.fields| == |b.fields|
    ensures r.Ok? && |b.fields| > 0 ==> r.value.fields[0].name == "sourceNodeId"
    ensures r.Ok? && |b.fields| > 1 ==> r.value.fields[1].name == "targetNodeId"
    ensures r.Ok? && |b.fields| > 2 ==> r.value.fields[2].name == "relationshipType"
    ensures r.Ok? ==> forall j :: 3 <= j < |b.fields| ==> r.value.fields[j] == b.fields[j]
    ensures r.Ok? ==> forall j :: 0 <= j < |b.fields| ==> r.value.fields[j].dtype == b.fields[j].dtype
    ensures r.Ok? ==> r.value.bytes == b.bytes
    ensures r.Ok? ==> r.value.numRows == if |b.fields| == 0 then 0 else b.numRows
  {
    Rename(EdgeTargets, b)
  }

  // ---------------------------------------------------------------------------
  // Lemmas.

  lemma {:induction false} OccurrencesPositive(s: seq<string>, x: string, a: nat)
    requires a < |s| && s[a] == x
    ensures Occurrences(s, x) >= 1
  {
    if a > 0 {
      OccurrencesPositive(s[1..], x, a - 1);
    }
  }

  lemma {:induction false} OccurrencesTwo(s: seq<string>, x: string, a: nat, b: nat)
    requires a < b < |s| && s[a] == x && s[b] == x
    ensures Occurrences(s, x) >= 2
  {
    if a == 0 {
      OccurrencesPositive(s[1..], x, b - 1);
    } else {
      OccurrencesTwo(s[1..], x, a - 1, b - 1);
    }
  }

  lemma {:induction false} OccurrencesDistinct(s: seq<string>, a: nat)
    requires Distinct(s) && a < |s|
    ensures Occurrences(s, s[a]) == 1
  {
    if a == 0 {
      OccurrencesAbsent(s[1..], s[0]);
    } else {
      OccurrencesDistinct(s[1..], a - 1);
    }
  }

  lemma {:induction false} OccurrencesAbsent(s: seq<string>, x: string)
    requires forall j :: 0 <= j < |s| ==> s[j] != x
    ensures Occurrences(s, x) == 0
  {
    if |s| > 0 {
      OccurrencesAbsent(s[1..], x);
    }
  }

  /** A unique name is found at the position that carries it. */
  lemma {:induction false} LookupAt(fields: seq<Field>, i: nat)
    requires i < |fields|
    requires Occurrences(Names(fields), fields[i].name) == 1
    ensures Lookup(fields, fields[i].name) == Ok(fields[i])
  {
    var name := fields[i].name;
    assert Names(fields)[1..] == Names(fields[1..]);
    if fields[0].name == name {
      if i > 0 {
        OccurrencesPositive(Names(fields[1..]), name, i - 1);
        assert false;
      }
    } else {
      assert Names(fields)[0] != name;
      LookupAt(fields[1..], i - 1);
    }
  }

  lemma {:induction false} RenameFromSpec(orig: seq<Field>, targets: seq<string>, i: nat)
    requires i <= |orig|
    ensures RenameFrom(orig, PartialRelabel(orig, targets, i), targets, i).Ok? <==>
      (forall k :: i <= k < |orig| ==>
         Occurrences(Names(PartialRelabel(orig, targets, k)), orig[k].name) == 1)
    ensures RenameFrom(orig, PartialRelabel(orig, targets, i), targets, i).Ok? ==>
      RenameFrom(orig, PartialRelabel(orig, targets, i), targets, i).value == Relabel(orig, targets)
    decreases |orig| - i
  {
    var cur := PartialRelabel(orig, targets, i);
    if i == |orig| {
      assert cur == Relabel(orig, targets);
    } else {
      assert cur[i] == orig[i];
      if Occurrences(Names(cur), orig[i].name) == 1 {
        LookupAt(cur, i);
        var next := if i < |targets| then cur[i := cur[i].(name := targets[i])] else cur;
        assert next == PartialRelabel(orig, targets, i + 1);
        RenameFromSpec(orig, targets, i + 1);
      }
    }
  }

  /** A rename succeeds exactly when every lookup its loop makes is
      unambiguous. */
  lemma RenameSucceedsIff(targets: seq<string>, b: Batch)
    ensures Rename(targets, b).Ok? <==> Renamable(b.fields, targets)
  {
    RenameFromSpec(b.fields, targets, 0);
    assert PartialRelabel(b.fields, targets, 0) == b.fields;
  }

  /** A rename that succeeds leaves no two fields with the same name. */
  lemma RenamedDistinct(fields: seq<Field>, targets: seq<string>)
    requires Distinct(targets)
    requires Renamable(fields, targets)
    ensures Distinct(Names(Relabel(fields, targets)))
  {
    var f := Names(Relabel(fields, targets));
    forall a, b | 0 <= a < b < |f|
      ensures f[a] != f[b]
    {
      if b >= |targets| {
        assert Names(PartialRelabel(fields, targets, b)) == f;
        if f[a] == f[b] {
          OccurrencesTwo(f, f[b], a, b);
        }
      }
    }
  }

  /** Applying a rename to its own output gives the same batch again. */
  lemma RenameIdempotent(targets: seq<string>, b: Batch)
    requires Distinct(targets)
    requires Rename(targets, b).Ok?
    ensures Rename(targets, Rename(targets, b).value) == Rename(targets, b)
  {
    var b' := Rename(targets, b).value;
    RenameSucceedsIff(targets, b);
    RenamedDistinct(b.fields, targets);
    forall i | 0 <= i < |b'.fields|
      ensures Occurrences(Names(PartialRelabel(b'.fields, targets, i)), b'.fields[i].name) == 1
    {
      assert PartialRelabel(b'.fields, targets, i) == b'.fields;
      OccurrencesDistinct(Names(b'.fields), i);
    }
    assert Relabel(b'.fields, targets) == b'.fields;
    RenameSucceedsIff(targets, b');
  }

  /** Both renames of the source are idempotent. */
  lemma RenamesIdempotent(b: Batch)
    ensures RenameNodes(b).Ok? ==> RenameNodes(RenameNodes(b).value) == RenameNodes(b)
    ensures RenameEdges(b).Ok? ==> RenameEdges(RenameEdges(b).value) == RenameEdges(b)
  {
    if RenameNodes(b).Ok? {
      RenameIdempotent(NodeTargets, b);
    }
    if RenameEdges(b).Ok? {
      RenameIdempotent(EdgeTargets, b);
    }
  }

  /** Whether a rename succeeds depends on the schema alone. */
  lemma RenameDependsOnSchema(targets: seq<string>, a: Batch, b: Batch)
    requires a.fields == b.fields
    ensures Rename(targets, a).Ok? <==> Rename(targets, b).Ok?
  {
    RenameSucceedsIff(targets, a);
    RenameSucceedsIff(targets, b);
  }
}

=== FILE: streams.dfy ===
/** The data path of the client: streaming an iterable of record batches
    (`_write_batches`) or one whole table (`_write_table`) and accounting the
    rows and bytes sent. The stream itself is an oracle: it cannot be opened,
    or its write of batch `k` fails, or closing it raises, or every write and
    the close succeed. The writer's own refusal of a batch whose schema
    differs from the one the stream was opened with is modelled directly. */
module Streams {
  import opened Outcomes
  import opened Batches
  import opened Renames

  /** The mapping function handed to a write: none (the client substitutes
      `_nop`, which returns `None` for every argument) or one of the two
      renames the workers pass. */
  datatype Mapping = Nop | NodeRename | EdgeRename

  /** What the transport does with one stream: `do_put` fails, or the
      write of batch `k` fails (caught and printed), or closing the writer
      on leaving `with writer:` raises outside the `try` (so the write
      raises whether or not its batches were written), or every write and
      the close succeed. For a whole table, any `FailsAt` stands for the one table
      write failing. */
  datatype StreamOutcome = OpenFails | FailsAt(k: nat) | CloseFails | Completes

  /** The outcomes under which a write raises once the stream is reached. */
  predicate Raises(o: StreamOutcome) {
    o.OpenFails? || o.CloseFails?
  }

  /** The result of a write together with whether the client's lazy
      `_client()` was entered on the way. */
  datatype Written = Written(connected: bool, result: Result<Counts>)

  /** `fn(x)`, where `x` is a batch or `None`. */
  function ApplyMapping(m: Mapping, b: Option<Batch>): (r: Result<Option<Batch>>)
    ensures m.Nop? ==> r == Ok(None)
    ensures !m.Nop? && b.None? ==> r == Err(MissingBatch)
    ensures r.Ok? && r.value.Some? ==> b.Some? && r.value.value.bytes == b.value.bytes
    ensures r.Ok? && r.value.Some? ==>
      r.value.value.numRows == if |b.value.fields| == 0 then 0 else b.value.numRows
    ensures !m.Nop? && b.Some? ==> (r.Ok? <==> Rename(Targets(m), b.value).Ok?)
    ensures r.Err? ==> r.fault == MissingBatch || r.fault.FieldLookup?
  {
    if m.Nop? then Ok(None)
    else if b.None? then Err(MissingBatch)
    else match Rename(Targets(m), b.value)
      case Ok(x) => Ok(Some(x))
      case Err(f) => Err(f)
  }

  function Targets(m: Mapping): seq<string>
    requires !m.Nop?
  {
    if m.NodeRename? then NodeTargets else EdgeTargets
  }

  /** The loop goes past index `j`: there is a batch there, its write does
      not fail, and its mapping yields a batch with the schema of the mapped
      first batch, which the stream was opened with. */
  predicate Continues(bs: seq<Batch>, m: Mapping, o: StreamOutcome, j: nat)
    requires j <= |bs|
  {
    j < |bs| && o != FailsAt(j) && SchemaMatches(m, bs[j], bs[0])
  }

  /** The mapping yields a batch from `b` and from `first`, and the two have
      the same schema, so the writer accepts the one on a stream opened for
      the other. */
  predicate SchemaMatches(m: Mapping, b: Batch, first: Batch) {
    var x := ApplyMapping(m, Some(b));
    var f := ApplyMapping(m, Some(first));
    x.Ok? && x.value.Some? && f.Ok? && f.value.Some? && x.value.value.fields == f.value.value.fields
  }

  /** `Continues` at every index, decided once for the whole input. */
  function Goes(bs: seq<Batch>, m: Mapping, o: StreamOutcome): (go: seq<bool>)
    ensures |go| == |bs|
    ensures forall j :: 0 <= j < |bs| ==> go[j] == Continues(bs, m, o, j)
  {
    seq(|bs|, j requires 0 <= j < |bs| => Continues(bs, m, o, j))
  }

  /** The `for remaining in batches` loop from index `j` on, with `acc`
      already counted, where `go[j]` says whether the loop goes past `j`.
      Rows and bytes of a later batch are taken from the batch before
      mapping, as the source does. */
  function StreamRest(bs: seq<Batch>, go: seq<bool>, j: nat, acc: Counts): Counts
    requires |go| == |bs| && 1 <= j <= |bs|
    decreases |bs| - j
  {
    if j < |bs| && go[j] then StreamRest(bs, go, j + 1, Add(acc, bs[j])) else acc
  }

  /** Where the loop from index `j` stops: the end of the input, the batch
      whose write fails, the batch whose mapping fails, or the batch whose
      mapped schema the writer refuses. */
  function StopFrom(go: seq<bool>, j: nat): (k: nat)
    requires j <= |go|
    ensures j <= k <= |go|
    decreases |go| - j
  {
    if j < |go| && go[j] then StopFrom(go, j + 1) else j
  }

  /** How many leading batches a successful `_write_batches` commits. */
  function Committed(bs: seq<Batch>, m: Mapping, o: StreamOutcome): (k: nat)
    requires |bs| > 0
    ensures k <= |bs|
  {
    if o == FailsAt(0) then 0 else StopFrom(Goes(bs, m, o), 1)
  }

  lemma {:induction false} StreamRestSums(bs: seq<Batch>, go: seq<bool>, j: nat, acc: Counts)
    requires |go| == |bs| && 1 <= j <= |bs|
    ensures StreamRest(bs, go, j, acc).rows == acc.rows + Total(bs[j..StopFrom(go, j)]).rows
    ensures StreamRest(bs, go, j, acc).bytes == acc.bytes + Total(bs[j..StopFrom(go, j)]).bytes
    decreases |bs| - j
  {
    var k := StopFrom(go, j);
    if k == j {
      assert bs[j..k] == [];
    } else {
      StreamRestSums(bs, go, j + 1, Add(acc, bs[j]));
      TotalConcat([bs[j]], bs[j + 1..k]);
      assert [bs[j]] + bs[j + 1..k] == bs[j..k];
      assert Total([bs[j]]) == Add(Total([]), bs[j]);
    }
  }

  /** `_write_batches`: maps the first batch and refuses a missing one (the
      rename of `None` raises) or a falsy one (no rows, which a batch without
      columns also has once rebuilt) before any connection is opened, then
      streams the batches in order
      and returns the rows and bytes of the batches written before the first
      failure; a failed write is reported through partial counts, not raised,
      while a failing close on leaving `with writer:` raises. */
  function WriteBatches(bs: seq<Batch>, m: Mapping, o: StreamOutcome): (r: Written)
    ensures m.Nop? ==> r == Written(false, Err(EmptyBatches))
    ensures |bs| == 0 ==> !r.connected && r.result.Err?
    ensures |bs| > 0 && !m.Nop? && Rename(Targets(m), bs[0]).Err? ==>
      r == Written(false, Err(Rename(Targets(m), bs[0]).fault))
    ensures |bs| == 0 && !m.Nop? ==> r == Written(false, Err(MissingBatch))
    ensures |bs| > 0 && !m.Nop? && Rename(Targets(m), bs[0]).Ok? && !(HasRows(bs[0]) && |bs[0].fields| > 0) ==>
      r == Written(false, Err(EmptyBatches))
    ensures r.result.Err? ==>
      r.result.fault in {EmptyBatches, MissingBatch, Transport} || r.result.fault.FieldLookup?
    ensures r.result.Err? && r.result.fault != Transport ==> !r.connected
    ensures r.result.Err? && r.result.fault == Transport ==> Raises(o)
    ensures r.result.Ok? ==> r.connected && |bs| > 0 && r.result.value == Total(bs[..Committed(bs, m, o)])
    ensures |bs| > 0 && !m.Nop? && Rename(Targets(m), bs[0]).Ok? && HasRows(bs[0]) && |bs[0].fields| > 0 ==>
      r.connected && (r.result.Ok? <==> !Raises(o))
  {
    var head := if |bs| == 0 then None else Some(bs[0]);
    match ApplyMapping(m, head)
    case Err(f) => Written(false, Err(f))
    case Ok(first) =>
      if first.None? || !HasRows(first.value) then Written(false, Err(EmptyBatches))
      else if Raises(o) then Written(true, Err(Transport))
      else if o == FailsAt(0) then Written(true, Ok(Counts(0, 0)))
      else
        var go := Goes(bs, m, o);
        assert first.value.numRows == bs[0].numRows && first.value.bytes == bs[0].bytes;
        var acc := Add(Counts(0, 0), bs[0]);
        StreamRestSums(bs, go, 1, acc);
        TotalConcat(bs[..1], bs[1..StopFrom(go, 1)]);
        assert bs[..1] + bs[1..StopFrom(go, 1)] == bs[..StopFrom(go, 1)];
        assert Total(bs[..1]) == Add(Total([]), bs[0]) by { assert bs[..1][..0] == []; }
        Written(true, Ok(StreamRest(bs, go, 1, acc)))
  }

  /** On a schema shared by all batches, a rename that succeeds on the first
      batch succeeds on every batch, so the loop stops only at a failing write. */
  lemma {:induction false} StopAtFailure(bs: seq<Batch>, m: Mapping, o: StreamOutcome, j: nat)
    requires !m.Nop? && |bs| > 0 && SameSchema(bs) && Rename(Targets(m), bs[0]).Ok?
    requires 1 <= j <= |bs|
    ensures o.Completes? ==> StopFrom(Goes(bs, m, o), j) == |bs|
    ensures o.FailsAt? && j <= o.k ==> StopFrom(Goes(bs, m, o), j) == if o.k < |bs| then o.k else |bs|
    decreases |bs| - j
  {
    if j < |bs| {
      RenameDependsOnSchema(Targets(m), bs[j], bs[0]);
      StopAtFailure(bs, m, o, j + 1);
    }
  }

  /** A batch whose mapped schema differs from the mapped first batch's ends
      the loop: the writer refuses it, and the refusal is caught like any
      failed write. */
  lemma SchemaChangeStops(bs: seq<Batch>, m: Mapping, o: StreamOutcome, j: nat)
    requires !m.Nop? && 1 <= j < |bs|
    requires Rename(Targets(m), bs[0]).Ok? && Rename(Targets(m), bs[j]).Ok?
    requires Rename(Targets(m), bs[j]).value.fields != Rename(Targets(m), bs[0]).value.fields
    ensures StopFrom(Goes(bs, m, o), j) == j
  {
  }

  /** A column whose type changes after the first batch: only the first
      batch is counted. */
  lemma SchemaChangeExample()
    ensures WriteBatches([Batch([Field("a", "int")], 1, 8), Batch([Field("a", "str")], 2, 16)],
                         NodeRename, Completes)
         == Written(true, Ok(Counts(1, 8)))
  {
    var bs := [Batch([Field("a", "int")], 1, 8), Batch([Field("a", "str")], 2, 16)];
    assert Rename(NodeTargets, bs[0]).Ok? by { RenameSucceedsIff(NodeTargets, bs[0]); }
    assert Rename(NodeTargets, bs[1]).Ok? by { RenameSucceedsIff(NodeTargets, bs[1]); }
    assert Rename(NodeTargets, bs[0]).value.fields[0].dtype == "int";
    assert Rename(NodeTargets, bs[1]).value.fields[0].dtype == "str";
    SchemaChangeStops(bs, NodeRename, Completes, 1);
    assert bs[..1] == [bs[0]];
  }

  lemma {:induction false} WrittenInFull(bs: seq<Batch>, m: Mapping, o: StreamOutcome)
    requires !m.Nop? && |bs| > 0 && !Raises(o)
    requires Rename(Targets(m), bs[0]).Ok? && HasRows(bs[0]) && |bs[0].fields| > 0
    ensures WriteBatches(bs, m, o) == Written(true, Ok(Total(bs[..Committed(bs, m, o)])))
  {
  }

  /** The accounting promise for a rename over one fragment, uninterrupted
      stream: the counts are the sums over all batches. */
  lemma {:induction false} WriteBatchesComplete(bs: seq<Batch>, m: Mapping)
    requires !m.Nop? && |bs| > 0 && SameSchema(bs)
    requires Rename(Targets(m), bs[0]).Ok? && HasRows(bs[0]) && |bs[0].fields| > 0
    ensures WriteBatches(bs, m, Completes) == Written(true, Ok(Total(bs)))
  {
    CommittedAll(bs, m);
    WrittenInFull(bs, m, Completes);
  }

  /** An uninterrupted stream on one schema commits every batch. */
  lemma {:induction false} CommittedAll(bs: seq<Batch>, m: Mapping)
    requires !m.Nop? && |bs| > 0 && SameSchema(bs) && Rename(Targets(m), bs[0]).Ok?
    ensures Committed(bs, m, Completes) == |bs|
    ensures bs[..Committed(bs, m, Completes)] == bs
  {
    StopAtFailure(bs, m, Completes, 1);
    assert bs[..|bs|] == bs;
  }

  /** The same promise when the write of batch `k` fails: the counts are the
      sums over the batches before `k`, and nothing is raised. */
  lemma {:induction false} WriteBatchesFailsAt(bs: seq<Batch>, m: Mapping, k: nat)
    requires !m.Nop? && |bs| > 0 && SameSchema(bs)
    requires Rename(Targets(m), bs[0]).Ok? && HasRows(bs[0]) && |bs[0].fields| > 0
    requires k <= |bs|
    ensures WriteBatches(bs, m, FailsAt(k)) == Written(true, Ok(Total(bs[..k])))
  {
    if k > 0 {
      StopAtFailure(bs, m, FailsAt(k), 1);
    }
    WrittenInFull(bs, m, FailsAt(k));
  }

  /** `_write_table`: the mapping function is looked up but never applied, and
      a failed write yields `(0, 0)` rather than an error. */
  function WriteTable(t: Batch, m: Mapping, o: StreamOutcome): (r: Written)
    ensures r.connected
    ensures r.result.Err? <==> Raises(o)
    ensures r.result.Err? ==> r.result.fault == Transport
    ensures o.Completes? ==> r.result == Ok(Counts(t.numRows, t.bytes))
    ensures o.FailsAt? ==> r.result == Ok(Counts(0, 0))
  {
    match o
    case OpenFails => Written(true, Err(Transport))
    case CloseFails => Written(true, Err(Transport))
    case FailsAt(_) => Written(true, Ok(Counts(0, 0)))
    case Completes => Written(true, Ok(Counts(t.numRows, t.bytes)))
  }

  /** The table path computes a mapping function but never applies it: the
      outcome is the same whichever mapping the caller passes. */
  lemma WriteTableIgnoresMapping(t: Batch, m: Mapping, o: StreamOutcome)
    ensures WriteTable(t, m, o) == WriteTable(t, Nop, o)
  {
  }
}

=== FILE: tasks.dfy ===
/** The worker of the process pool: it normalises its argument to a list of
    task dictionaries, picks the node or the relationship consumer for each
    from the keys present, streams the fragment through the client and sums
    the rows and bytes. Also the construction of the work list from the
    fragments of a dataset. */
module Tasks {
  import opened Outcomes
  import opened Batches
  import opened Streams
  import opened ArrowClient

  /** A dataset fragment, reduced to the batches its scanner yields. */
  datatype Fragment = Fragment(batches: seq<Batch>)

  /** A task dictionary: the names of its keys other than "fragment", and
      the value under "fragment" when that key is present. */
  datatype Task = Task(keys: set<string>, fragment: Option<Fragment>)

  /** The argument of `worker`: a single task dictionary or a list of them. */
  datatype WorkArg = OneTask(task: Task) | TaskList(tasks: seq<Task>)

  datatype Kind = NodeKind | EdgeKind

  /** The per-worker summary; `pid` stands for the worker's name. */
  datatype WorkResult = WorkResult(pid: nat, rows: nat, bytes: nat)

  /** A single dictionary is wrapped into a one-element list. */
  function Normalise(w: WorkArg): (ts: seq<Task>)
    ensures w.OneTask? ==> |ts| == 1 && ts[0] == w.task
    ensures w.TaskList? ==> ts == w.tasks
  {
    match w
    case OneTask(t) => [t]
    case TaskList(ts) => ts
  }

  /** The consumer is picked from the keys: "key" (nodes) wins over "src"
      (relationships); a task with neither is refused. */
  function Dispatch(t: Task): (r: Result<Kind>)
    ensures r == Ok(NodeKind) <==> "key" in t.keys
    ensures r == Ok(EdgeKind) <==> "key" !in t.keys && "src" in t.keys
    ensures r.Err? <==> "key" !in t.keys && "src" !in t.keys
  {
    if "key" in t.keys then Ok(NodeKind)
    else if "src" in t.keys then Ok(EdgeKind)
    else Err(NoConsumer)
  }

  /** What one task contributes: `consume_fragment` with the chosen
      consumer. The task's keys are passed on as keyword arguments, so a key
      named like a parameter of the callee is a TypeError; a task without a
      fragment is a KeyError; then the client's guarded write runs with the
      kind's rename. */
  function TaskCounts(c: Client, t: Task, o: StreamOutcome): (r: Step<Counts>)
    ensures r.client.state == c.state && SameTarget(r.client, c)
    ensures r.client == c.(connected := r.client.connected)
  {
    match Dispatch(t)
    case Err(f) => Step(c, Err(f))
    case Ok(kind) =>
      if "consumer" in t.keys then Step(c, Err(DuplicateArgument("consumer")))
      else if t.fragment.None? then Step(c, Err(MissingFragment))
      else
        var input := BatchInput(t.fragment.value.batches);
        if kind == NodeKind then
          if "nodes" in t.keys then Step(c, Err(DuplicateArgument("nodes")))
          else WriteNodes(c, input, NodeRename, o)
        else
          if "edges" in t.keys then Step(c, Err(DuplicateArgument("edges")))
          else WriteEdges(c, input, EdgeRename, o)
  }

  /** The dispatch of a task, stated per key: no consumer, no fragment, and
      otherwise the guarded write of the kind the keys select. */
  lemma TaskCountsDispatch(c: Client, t: Task, o: StreamOutcome)
    ensures "key" !in t.keys && "src" !in t.keys ==> TaskCounts(c, t, o).result == Err(NoConsumer)
    ensures Dispatch(t).Ok? && "consumer" !in t.keys && t.fragment.None? ==>
      TaskCounts(c, t, o).result == Err(MissingFragment)
    ensures "key" in t.keys && "consumer" !in t.keys && "nodes" !in t.keys && t.fragment.Some? ==>
      TaskCounts(c, t, o).result == (if c.state == FeedingNodes
                                     then WriteBatches(t.fragment.value.batches, NodeRename, o).result
                                     else Err(StateAssertion))
    ensures "key" !in t.keys && "src" in t.keys && "consumer" !in t.keys && "edges" !in t.keys
            && t.fragment.Some? ==>
      TaskCounts(c, t, o).result == (if c.state == FeedingEdges
                                     then WriteBatches(t.fragment.value.batches, EdgeRename, o).result
                                     else Err(StateAssertion))
  {
  }

  /** Only the protocol point and the target matter to a task's outcome,
      not whether the worker's client is already connected. */
  lemma TaskCountsIgnoresConnection(c: Client, t: Task, o: StreamOutcome, connected: bool)
    ensures TaskCounts(c.(connected := connected), t, o).result == TaskCounts(c, t, o).result
  {
  }

  /** What each task of a worker's list contributes, in task order:
      `outcome(i)` is what the transport does with the stream of task `i`. */
  function Contributions(c: Client, ts: seq<Task>, outcome: nat -> StreamOutcome): seq<Result<Counts>> {
    seq(|ts|, i requires 0 <= i < |ts| => TaskCounts(c, ts[i], outcome(i)).result)
  }

  /** The totals over the first `n` contributions: the first fault raised,
      or the sums of each task's `(rows, bytes)` pair. */
  function Accumulate(rs: seq<Result<Counts>>, n: nat): Result<Counts>
    requires n <= |rs|
  {
    if n == 0 then Ok(Counts(0, 0))
    else match Accumulate(rs, n - 1)
      case Err(f) => Err(f)
      case Ok(acc) =>
        match rs[n - 1]
        case Err(f) => Err(f)
        case Ok(k) => Ok(Counts(acc.rows + k.rows, acc.bytes + k.bytes))
  }

  function Summary(r: Result<Counts>, pid: nat): Result<WorkResult> {
    match r
    case Ok(k) => Ok(WorkResult(pid, k.rows, k.bytes))
    case Err(f) => Err(f)
  }

  /** What `worker` returns for one task dictionary, as the pool calls it. */
  function TaskSummary(c: Client, t: Task, o: StreamOutcome, pid: nat): Result<WorkResult> {
    Summary(TaskCounts(c, t, o).result, pid)
  }

  /** `worker`: runs every task of its argument, in order, and returns the
      sums of the tasks' contributions, or the first fault. The worker's
      client only ever gains a connection while it runs, which does not
      change any task's outcome (`TaskCountsIgnoresConnection`), so every
      task is run against the client as the worker received it. */
  method Worker(c: Client, w: WorkArg, outcome: nat -> StreamOutcome, pid: nat)
    returns (result: Result<WorkResult>)
    ensures result == Summary(Accumulate(Contributions(c, Normalise(w), outcome), |Normalise(w)|), pid)
    ensures w.OneTask? ==> result == TaskSummary(c, w.task, outcome(0), pid)
  {
    var rs := Contributions(c, Normalise(w), outcome);
    var total := SumContributions(rs);
    result := Summary(total, pid);
    if w.OneTask? {
      OneTaskSum(rs, total);
    }
  }

  /** The loop of `worker`: stops at the first task that raises. */
  method SumContributions(rs: seq<Result<Counts>>) returns (r: Result<Counts>)
    ensures r == Accumulate(rs, |rs|)
    ensures r.Err? <==> exists i :: 0 <= i < |rs| && rs[i].Err?
    ensures r.Err? ==> exists i :: 0 <= i < |rs| && rs[i] == Err(r.fault) &&
                                   forall j :: 0 <= j < i ==> rs[j].Ok?
  {
    var rows: nat, bytes: nat := 0, 0;
    var i := 0;
    while i < |rs|
      invariant 0 <= i <= |rs|
      invariant Accumulate(rs, i) == Ok(Counts(rows, bytes))
      invariant forall j :: 0 <= j < i ==> rs[j].Ok?
    {
      if rs[i].Err? {
        FaultPersists(rs, i + 1, |rs|);
        return rs[i];
      }
      rows, bytes := rows + rs[i].value.rows, bytes + rs[i].value.bytes;
      i := i + 1;
    }
    return Ok(Counts(rows, bytes));
  }

  /** One contribution is summed as itself. */
  lemma OneTaskSum(rs: seq<Result<Counts>>, total: Result<Counts>)
    requires |rs| == 1 && total == Accumulate(rs, 1)
    ensures total == rs[0]
  {
    assert Accumulate(rs, 0) == Ok(Counts(0, 0));
  }

  lemma {:induction false} FaultPersists(rs: seq<Result<Counts>>, n: nat, m: nat)
    requires n <= m <= |rs|
    requires Accumulate(rs, n).Err?
    ensures Accumulate(rs, m) == Accumulate(rs, n)
    decreases m - n
  {
    if m > n {
      FaultPersists(rs, n, m - 1);
    }
  }

  // ---------------------------------------------------------------------------
  // The work list.

  /** The dataset location as passed by the caller: one path or a list. */
  datatype DataSpec = PathString(path: string) | PathList(paths: seq<string>)

  predicate HasSubstring(s: string, p: string)
    decreases |s|
  {
    |p| <= |s| && (s[..|p|] == p || HasSubstring(s[1..], p))
  }

  /** `word in data`: a substring test on a string, membership on a list. */
  predicate Mentions(d: DataSpec, word: string) {
    match d
    case PathString(s) => HasSubstring(s, word)
    case PathList(ps) => word in ps
  }

  /** One task per fragment, tagged for nodes when the location mentions
      "nodes" (checked first), for relationships when it mentions
      "relationships", and no work otherwise. */
  function WorkList(d: DataSpec, fragments: seq<Fragment>): (ts: seq<Task>)
    ensures Mentions(d, "nodes") || Mentions(d, "relationships") ==> |ts| == |fragments|
    ensures !Mentions(d, "nodes") && !Mentions(d, "relationships") ==> ts == []
    ensures forall i :: 0 <= i < |ts| ==> ts[i].fragment == Some(fragments[i])
    ensures Mentions(d, "nodes") ==> forall i :: 0 <= i < |ts| ==> Dispatch(ts[i]) == Ok(NodeKind)
    ensures !Mentions(d, "nodes") ==> forall i :: 0 <= i < |ts| ==> Dispatch(ts[i]) == Ok(EdgeKind)
    ensures forall i :: 0 <= i < |ts| ==>
      "consumer" !in ts[i].keys && "nodes" !in ts[i].keys && "edges" !in ts[i].keys
  {
    if Mentions(d, "nodes") then seq(|fragments|, i requires 0 <= i < |fragments| => Task({"key"}, Some(fragments[i])))
    else if Mentions(d, "relationships") then seq(|fragments|, i requires 0 <= i < |fragments| => Task({"src"}, Some(fragments[i])))
    else []
  }
}
